=== FILE: README.md ===
# Sentinel-1 orbit resolution, modelled in Dafny

This project models the orbit-resolution core of `bitd`, a small Go tool. For each Sentinel-1 product
directory (`S1A_IW_SLC__1SDV_20200101T060000_20200101T063000_…`) the tool finds the precise-orbit
(`POEORB`) file whose validity window covers the product's acquisition window. The file is listed
in ESA's monthly catalog at `http://step.esa.int/auxdata/orbits/Sentinel-1/<kind>/<sensor>/<YYYY>/<MM>/`.

The model is pure and functional:

- `outcomes.dfy`: `Outcome` keeps the three ways the Go code reports trouble apart. `Error` is a returned
  `error`. `Panic(index, length)` is an index out of range. `Fatal` is `log.Fatal*`, which ends the process.
  `Run` pairs an outcome with the catalog URLs fetched to reach it.
- `text.dfy`: `strings.Split`/join on one separator, decimal digit runs and zero padding, and
  `fmt.Sprintf` for `%s`-only formats.
- `clock.dfy`: `time.Parse` for the layout `20060102T150405` behind a literal prefix and in front of a
  literal suffix (`V…` and `….EOF.zip` for catalog rows). It also has the formatting back, the Gregorian
  calendar checks, and `Before`. `Before` is the lexicographic order of the calendar fields. It is proved
  equal to the order of instants, which is what Go compares.
- `identifier.dfy`: `parse`. The sensor type is field 0 of the `_`-split name. The acquisition window is
  fields 5 and 6.
- `catalog.dfy`: the listing URL, the reading of one listing row, strict containment, and the `Each`
  callback as a left fold (`Scan`) over the listing's link texts.
- `resolver.dfy`: `search` and `newSentinel` exactly as written. The network is a parameter
  `catalog: string -> Response`.
- `intended.dfy`: the behaviour the code evidently aims at, next to the code as written. The scan takes
  the first covering row, and `RESORB` is searched only after a `POEORB` miss. The scan still reads
  every row, so a broken row anywhere in the listing stays fatal, as in the code as written
  (sentinel.go:92-101). The lemmas here relate the two behaviours.

Two pieces of the code show this intent without carrying it out. First, the callback in `search`
`return`s right after recording a covering row (sentinel.go:105). That `return` only ends the current
callback call, so later covering rows overwrite the choice. Second, `newSentinel` has a branch that
searches `RESORB` (sentinel.go:43-46). Because `search` always returns `false` (sentinel.go:109-112),
that branch is never taken. The model follows the code as written and records both gaps under
"Findings". The timestamps are fields 5 and 6 of the `_`-split name, counting from zero.

## Model

| member | source | states |
|---|---|---|
| Text.Split | sentinel.go:52 | Splitting on `_` gives at least one field. No field contains `_`. Joining the fields with `_` gives back the input. |
| Text.SplitJoin | sentinel.go:91 | Splitting a `_`-join of `_`-free fields gives back exactly those fields. |
| Text.SplitHead | sentinel.go:54 | With two or more fields, the first field is the text before the first separator. |
| Text.Sprintf | sentinel.go:69 | A format without `%` prints as itself. With operands left over, Go appends `%!(EXTRA …)` listing them. |
| Clock.Parse | sentinel.go:57 | A token `time.Parse` accepts for `20060102T150405` is a valid timestamp: month 1-12, day within the month by the Gregorian leap rule, hour < 24, minute and second < 60. |
| Clock.ParsedToken | sentinel.go:94-101 | An accepted token is exactly the literal prefix, the 15-character stamp of what it decodes to, and the literal suffix. No leftover text is allowed. |
| Clock.ParseFormat | sentinel.go:57-64 | Every valid timestamp, formatted between the literals, is accepted and decodes to itself. |
| Clock.ParseIff | sentinel.go:94-101 | A token decodes to `t` exactly when `t` is a valid timestamp and the token is the literal prefix, `t`'s 15-character stamp and the literal suffix: the decoding is injective and is the inverse of formatting. |
| Clock.Before | sentinel.go:102 | `Before` is irreflexive, and it never holds when the first year is later than the second. |
| Clock.BeforeIsChronological | sentinel.go:102 | For valid timestamps, field-wise `Before` holds exactly when the first instant (seconds since year 0, UTC) is smaller. |
| Clock.FormatYearMonthOfParse | sentinel.go:69 | `Format("2006/01")` of a parsed token is its first four characters, `/`, and the next two. |
| Clock.FormatYearMonth | sentinel.go:69 | `Format("2006/01")` gives seven characters: four digits, `/`, two digits. |
| Identifier.Parse | sentinel.go:50-66 | Fewer than seven fields panic on index 5, or on index 6 when there are exactly six. An undecodable start token gives the start token's parse error whatever the end token is. The start token is checked before the end token. Success happens exactly when both tokens decode. |
| Identifier.ParsedFields | sentinel.go:52-63 | On success the sensor type is the `_`-free text before the first `_`. Both times are valid and format back to fields 5 and 6. |
| Identifier.ParseName | sentinel.go:50-66 | Take `_`-free fields and put two formatted valid timestamps in place of fields 5 and 6. The name built from them parses back to field 0 and those two timestamps. |
| Catalog.CatalogUrl | sentinel.go:69 | The listing URL is the catalog root, then kind, `/`, sensor type, `/`, `YYYY/MM` of the start time, and `/`. |
| Catalog.SprintfUrl | sentinel.go:20 | `Sprintf(DOWNLOADURL, a, b, c)` fills the three `%s` in order. |
| Catalog.CatalogUrlOfName | sentinel.go:69 | For a parsed name, the URL's sensor part is the sensor type. `YYYY` and `MM` are characters 0-3 and 4-5 of field 5 of the name. |
| Catalog.ReadRow | sentinel.go:89-101 | Empty and `Parent Directory` texts, and only those, are skipped unread. Other texts with fewer than eight fields panic on index 6 or 7. An undecodable field 6 or 7 is fatal. A row is never a returned error. |
| Catalog.ReadRowTitle | sentinel.go:89-101 | A title built from six `_`-free fields, `V` + a valid stamp and a valid stamp + `.EOF.zip` reads back as the entry with exactly that validity window. |
| Catalog.ReadRowEntry | sentinel.go:92-101 | A row entry keeps the title. Its window is the valid timestamps that field 6 spells after `V` and field 7 spells before `.EOF.zip`. |
| Catalog.Skipped | sentinel.go:90 | The skipped link texts contain no `_`, so they are never orbit titles. |
| Catalog.Covers | sentinel.go:102 | A covering row shares neither boundary with the product: its start differs from the product start and its end from the product end. |
| Catalog.CoversChronological | sentinel.go:102 | A row covers the product exactly when its start instant is strictly earlier than the product start and its end instant strictly later than the product end. Sharing either boundary does not qualify. |
| Catalog.Step | sentinel.go:88-106 | One callback run fails exactly on a broken row and never returns an error value. A covering row always overwrites the fields with (URL + title, title), whatever they held. A well-formed row that does not cover leaves them unchanged. |
| Catalog.Scan | sentinel.go:87-108 | The fold ends with the fields unchanged or set from some covering row. It fails only when some row is broken. It never returns an error value. |
| Catalog.ScanNoMatch | sentinel.go:87-108 | With no broken and no covering row, both fields are left as they were. |
| Catalog.ScanLastMatch | sentinel.go:103-105 | Over a well-formed listing the fields end as those of the LAST covering row. |
| Catalog.ScanFirstBroken | sentinel.go:92-101 | The first broken row decides the outcome (its panic or fatal error), and no selection survives. |
| Catalog.ScanFinds | sentinel.go:87-108 | From a fresh sentinel over a well-formed listing, `orbitName` ends non-empty exactly when some row covers the product. |
| Catalog.ScanIgnoresSkipped | sentinel.go:90 | Removing the empty and `Parent Directory` rows never changes the outcome. |
| Resolver.Search | sentinel.go:68-113 | `search` fetches exactly its own listing URL. A transport error, a status other than 200 and an unreadable page are each fatal with that fault. On a readable 200 page the outcome is the row fold from the sentinel's current fields: its failure is passed on, and otherwise the sentinel comes back with the fold's fields, its name and product untouched, and the result `false`. A returned error value is impossible. |
| Resolver.NewSentinel | sentinel.go:36-48 | A name that parses triggers exactly one fetch, the `POEORB` URL, and never the `RESORB` one. A name that does not parse triggers no fetch and its parse failure is returned. A returned sentinel carries the name's parse results. |
| Resolver.Locate | sentinel.go:43-47 | After a successful parse, exactly the `POEORB` listing is fetched. A transport error, a non-200 status and an unreadable page are fatal with that fault. On a readable 200 page, the fold from a fresh sentinel either fails, and that failure is passed on, or gives the fields of the returned sentinel, which keeps the name and parsed product. The result is never a returned error value. |
| Resolver.NewSentinelIgnoresRestituted | sentinel.go:43-45 | Two networks that agree on the `POEORB` listing give the same run: the `RESORB` catalog never matters. |
| Resolver.LocateSelects | sentinel.go:43-47 | Over a well-formed `POEORB` listing, the sentinel is returned. Its `orbitName` is non-empty exactly when a row covers the product, and then it is the last covering row with `orbitUrl` = listing URL + name. |
| Resolver.LocateBrokenRow | sentinel.go:94-101 | A broken `POEORB` row ends the run with that row's panic or fatal error. |
| Intended.ScanFirst | sentinel.go:88-105 | A selection from the first-match scan is a covering row of the listing. It is never a returned error. |
| Intended.ScanFirstMatch | sentinel.go:105 | Over a well-formed listing, the first covering row is selected, whatever covering rows follow it. |
| Intended.ScanFirstBroken | sentinel.go:92-101 | The first-match scan stays strict: the first broken row decides the outcome (its panic or fatal error), even when a covering row comes before it. |
| Intended.ScanFirstNone | sentinel.go:87-108 | A well-formed listing without a covering row yields no selection. |
| Intended.SearchFirst | sentinel.go:68-113 | One fetch of the kind's listing URL, and never an error value. A result needs a 200 page with a body. On such a page the result is exactly the first-match scan of its rows, so the first covering row is found. A selection is (URL + title, title) for some covering row of that page. |
| Intended.Resolve | sentinel.go:36-42 | A name that does not parse fails with its parse failure and no fetch, as in `newSentinel`. The only returned errors are parse errors and `NoOrbit`. |
| Intended.ResolveFrom | sentinel.go:43-47 | `RESORB` is fetched exactly when the `POEORB` search ends without a covering row. A `POEORB` hit succeeds with that selection, and a `POEORB` failure is passed on unchanged. After a `POEORB` miss, a `RESORB` hit succeeds with its selection and a `RESORB` failure is passed on. The result is `NoOrbit` exactly when both searches end without a covering row. |
| Intended.ResolveFromFirstPrecise | sentinel.go:103-105 | When the `POEORB` listing is a well-formed 200 page with a covering row, resolution fetches once and selects the first covering row, whatever covering rows follow it. |
| Intended.LastMatchWins | sentinel.go:103-105 | For the product and the two distinct covering titles given under Findings, the code as written selects the second title and the first-match scan selects the first. |
| Intended.ScansAgreeOnUniqueMatch | sentinel.go:87-108 | With at most one covering row both scans select the same row, or both select nothing. |
| Intended.FallbackNeverTaken | sentinel.go:43-46 | Take a `POEORB` miss and a `RESORB` hit. As written, one fetch returns a sentinel with empty `orbitName`. As intended, two fetches select the `RESORB` entry. |
| Intended.AgreeOnUniquePreciseMatch | sentinel.go:43-47 | With exactly one covering `POEORB` row, the code as written and the intended resolver give the same run. |

## Left out

- `download` and `unZip` (sentinel.go:116-196) are left out. They are HTTP, file and zip I/O with permission bits. As written, `download` also ignores the `http.Get` error (sentinel.go:117).
- The HTTP request, the status check and goquery's HTML parsing (sentinel.go:71-86) are not modelled as such. They become the `Response` parameter: a transport error, or a status with the link text of every `tr td` cell (`None` when the body cannot be read as HTML).
- How goquery concatenates the text of the anchors in a cell is not modelled: each cell is one link text.
- `fmt.Println`, the `log` output and `init`'s log flags (sentinel.go:23-25, 53) are output only. Panic and fatal messages are reduced to the index and length, or to the `Fault` payload.
- main.go is not part of this model. It covers the `.SAFE` directory scan and the batch loop. After a parse error that loop goes on to call `download` on a nil sentinel.
- Clock.Parse: Go's `time.Parse` also accepts a fractional-second run (`.123`) right after the seconds even though the layout has none. Newer Go releases also accept `,`, and the digit-count limit differs between releases. The model rejects such tokens, so it accepts slightly fewer tokens than Go does.
- Clock.FormatYearMonth: the Go year formatting for years above 9999 is left out, because parsed years have four digits.
- Text.Sprintf: verbs other than `%s`, `%%` included, are left out (a `%` not followed by `s` is copied as it is), because `DOWNLOADURL` uses only `%s`.
- `defer res.Body.Close()` (sentinel.go:75) releases a resource and has no effect on the result.
- Time zones, monotonic readings and nanoseconds of Go's `time.Time` are left out. Every time here is UTC with second precision.

## Findings

| source | as written | input that shows it | evidently intended | confidence | as-written member | corrected member |
|---|---|---|---|---|---|---|
| sentinel.go:43-46 | `search` returns `false` on both paths (sentinel.go:109-112), so `!s.search(PRECISEORBIT)` is always true and the empty then-branch is taken: the `RESORB` search never runs. Were `search` to report a match, the inverted branch would search `RESORB` after a `POEORB` hit instead of a miss | a product with no covering row in its `POEORB` month listing but one in the `RESORB` listing: the result is a sentinel with empty `orbitName` and one fetch | `search` reports whether a row matched, and `newSentinel` searches `RESORB` exactly when the `POEORB` search found nothing | not executed; high | Resolver.NewSentinel | Intended.Resolve |
| sentinel.go:105 | the `return` leaves only the per-row callback, so `Each` goes on and a later covering row overwrites an earlier one | a product acquired 2020-01-01T23:30:00-23:40:00 and a listing with `S1A_OPER_AUX_POEORB_OPOD_20200121T120654_V20191231T225942_20200102T005942.EOF.zip` then `S1A_OPER_AUX_POEORB_OPOD_20200121T120654_V20200101T225942_20200103T005942.EOF.zip`: both cover it and the second is selected | select the first covering row in listing order; every row is still read, so a broken row after it stays fatal | not executed; medium | Catalog.Scan | Intended.ScanFirst |

The two as-written behaviours are exhibited by Intended.FallbackNeverTaken and Intended.LastMatchWins.

=== FILE: catalog.dfy ===
/** The catalog side of `(*sentinel).search`: the URL of a month's listing
    of orbit files, the reading of one listing row, and the fold of the
    `Each` callback over all rows of the listing. */
module Catalog {
  import opened Text
  import opened Outcomes
  import Clock
  import opened Identifier

  /** Orbit-kind tokens: precise (POEORB) and restituted (RESORB) orbits. */
  const PreciseOrbit := "POEORB"
  const RestitutedOrbit := "RESORB"

  /** `http://step.esa.int/auxdata/orbits/Sentinel-1/`, kept in pieces so that
      facts about its characters can be checked piece by piece. */
  const OrbitsRoot := "http://" + "step.esa.int/" + "auxdata/" + "orbits/" + "Sentinel-1/"

  /** `DOWNLOADURL`: kind, sensor type and `YYYY/MM` go into the three `%s`. */
  const DownloadUrl := OrbitsRoot + "%s/%s/%s/"

  /** Layouts of the validity-start and validity-end fields of a row title. */
  const ValidityStartLayout := "V" + Clock.StampLayout
  const ValidityEndLayout := Clock.StampLayout + ".EOF.zip"

  /** `fmt.Sprintf(DOWNLOADURL, kind, sensorType, start.Format("2006/01"))`. */
  function CatalogUrl(kind: string, sensorType: string, start: Clock.DateTime): (url: string)
    ensures url == OrbitsRoot + kind + "/" + sensorType + "/" + Clock.FormatYearMonth(start) + "/"
  {
    var ym := Clock.FormatYearMonth(start);
    SprintfUrl(kind, sensorType, ym);
    Sprintf(DownloadUrl, [kind, sensorType, ym])
  }

  lemma SprintfUrl(a: string, b: string, c: string)
    ensures Sprintf(DownloadUrl, [a, b, c]) == OrbitsRoot + a + "/" + b + "/" + c + "/"
  {
    NoVerbInRoot();
    SprintfLiteral(OrbitsRoot, "%s/%s/%s/", [a, b, c]);
    SprintfVerbs(a, b, c);
  }

  lemma NoVerbInRoot()
    ensures '%' !in OrbitsRoot
  {
    assert '%' !in "http://" && '%' !in "step.esa.int/" && '%' !in "auxdata/";
    assert '%' !in "orbits/" && '%' !in "Sentinel-1/";
  }

  lemma SprintfVerbs(a: string, b: string, c: string)
    ensures Sprintf("%s/%s/%s/", [a, b, c]) == a + "/" + b + "/" + c + "/"
  {
    var f := "%s/%s/%s/";
    assert f[2..] == "/%s/%s/" && f[2..][1..] == "%s/%s/";
    assert f[5..] == "/%s/" && f[5..][1..] == "%s/";
    assert f[8..] == "/" && f[8..][1..] == "";
    calc {
      Sprintf(f, [a, b, c]);
      a + Sprintf("/%s/%s/", [b, c]);
      a + "/" + Sprintf("%s/%s/", [b, c]);
      a + "/" + b + Sprintf("/%s/", [c]);
      a + "/" + b + "/" + Sprintf("%s/", [c]);
      a + "/" + b + "/" + c + Sprintf("/", []);
      a + "/" + b + "/" + c + "/";
    }
  }

  /** The listing URL for a parsed product name: the kind, the name's first
      field and the first six digits of its start token, as `YYYY/MM`. */
  lemma CatalogUrlOfName(kind: string, dirname: string)
    requires Parse(dirname).Ok?
    ensures var p := Parse(dirname).value;
      var f := Split(dirname, '_');
      CatalogUrl(kind, p.sensorType, p.startTime)
        == OrbitsRoot + kind + "/" + p.sensorType + "/" + f[5][0..4] + "/" + f[5][4..6] + "/"
  {
    var p := Parse(dirname).value;
    ParsedFields(dirname);
    var token := Split(dirname, '_')[5];
    YearMonthOfToken(p.startTime, token);
    AppendYearMonth(OrbitsRoot + kind + "/" + p.sensorType + "/", token);
  }

  lemma AppendYearMonth(head: string, token: string)
    requires |token| >= 6
    ensures head + (token[0..4] + "/" + token[4..6]) + "/" == head + token[0..4] + "/" + token[4..6] + "/"
  {
  }

  lemma YearMonthOfToken(t: Clock.DateTime, token: string)
    requires token == Clock.Format(t)
    ensures Clock.FormatYearMonth(t) == token[0..4] + "/" + token[4..6]
  {
    Clock.FormatFields(t);
  }

  // ---------------------------------------------------------------------------
  // One row of the listing
  // ---------------------------------------------------------------------------

  /** A catalog entry read from a row title such as
      `S1A_OPER_AUX_POEORB_OPOD_20200121T120654_V20191231T225942_20200102T005942.EOF.zip`. */
  datatype Entry = Entry(title: string, validStart: Clock.DateTime, validEnd: Clock.DateTime)

  /** Link texts the callback passes over without looking inside. */
  function Skipped(title: string): (r: bool)
    ensures r ==> '_' !in title
  {
    assert '_' !in "Parent " && '_' !in "Directory" && "Parent Directory" == "Parent " + "Directory";
    title == "" || title == "Parent Directory"
  }

  /** The callback's reading of one row: skipped rows give `None`; otherwise
      the title is split on `_`, field 6 is decoded as `V` + timestamp and
      field 7 as timestamp + `.EOF.zip`. A title with fewer than eight fields
      panics on `ss[6]` or `ss[7]`; an undecodable field ends the process
      through `log.Fatalln`. */
  function ReadRow(title: string): (r: Outcome<Option<Entry>>)
    ensures r == Ok(None) <==> Skipped(title)
    ensures !r.Error?
    ensures r.Panic? <==> !Skipped(title) && |Split(title, '_')| < 8
    ensures r.Panic? ==>
      var n := |Split(title, '_')|;
      r.index == (if n <= 6 then 6 else 7) && r.length == n
    ensures r.Fatal? <==>
      var f := Split(title, '_');
      && !Skipped(title) && |f| >= 8
      && (Clock.Parse("V", "", f[6]).None? || Clock.Parse("", ".EOF.zip", f[7]).None?)
  {
    if Skipped(title) then Ok(None)
    else
      var ss := Split(title, '_');
      if |ss| <= 6 then Panic(6, |ss|)
      else if |ss| == 7 then Panic(7, |ss|)
      else
        match Clock.Parse("V", "", ss[6])
        case None => Fatal(TimeParse(ValidityStartLayout, ss[6]))
        case Some(validStart) =>
          match Clock.Parse("", ".EOF.zip", ss[7])
          case None => Fatal(TimeParse(ValidityEndLayout, ss[7]))
          case Some(validEnd) => Ok(Some(Entry(title, validStart, validEnd)))
  }

  /** An entry read from a row carries the row's title and the valid
      timestamps that its fields 6 and 7 spell between the literals. */
  lemma ReadRowEntry(title: string)
    requires ReadRow(title).Ok? && ReadRow(title).value.Some?
    ensures var e := ReadRow(title).value.value;
      var f := Split(title, '_');
      && e.title == title && |f| >= 8
      && Clock.Valid(e.validStart) && f[6] == "V" + Clock.Format(e.validStart)
      && Clock.Valid(e.validEnd) && f[7] == Clock.Format(e.validEnd) + ".EOF.zip"
  {
    var e := ReadRow(title).value.value;
    var f := Split(title, '_');
    Clock.ParsedToken("V", "", f[6]);
    Clock.ParsedToken("", ".EOF.zip", f[7]);
    assert "V" + Clock.Format(e.validStart) + "" == "V" + Clock.Format(e.validStart);
    assert "" + Clock.Format(e.validEnd) + ".EOF.zip" == Clock.Format(e.validEnd) + ".EOF.zip";
  }

  /** The title of an orbit file with the six leading fields `head`, the
      validity start `from` and the validity end `to`. */
  function OrbitTitle(head: seq<string>, from: Clock.DateTime, to: Clock.DateTime): (title: string)
    requires |head| == 6
  {
    Join(head + ["V" + Clock.Format(from), Clock.Format(to) + ".EOF.zip"], '_')
  }

  /** Round trip: the title of an orbit file reads back as the entry for that
      title and validity window, whatever its six leading `_`-free fields. */
  lemma ReadRowTitle(head: seq<string>, from: Clock.DateTime, to: Clock.DateTime)
    requires |head| == 6 && forall i :: 0 <= i < 6 ==> '_' !in head[i]
    requires Clock.Valid(from) && Clock.Valid(to)
    ensures var title := OrbitTitle(head, from, to);
      ReadRow(title) == Ok(Some(Entry(title, from, to)))
  {
    var f := head + ["V" + Clock.Format(from), Clock.Format(to) + ".EOF.zip"];
    var title := Join(f, '_');
    Clock.FormatNoUnderscore(from);
    Clock.FormatNoUnderscore(to);
    forall i | 0 <= i < |f|
      ensures '_' !in f[i]
    {
      if i < 6 { assert f[i] == head[i]; }
      else if i == 6 { assert f[i] == "V" + Clock.Format(from) && '_' !in "V"; }
      else { assert f[i] == Clock.Format(to) + ".EOF.zip" && '_' !in ".EOF.zip"; }
    }
    SplitJoin(f, '_');
    NotSkipped(title);
    Clock.ParseFormat("V", "", from);
    Clock.ParseFormat("", ".EOF.zip", to);
    assert "V" + Clock.Format(from) + "" == f[6];
    assert "" + Clock.Format(to) + ".EOF.zip" == f[7];
  }

  /** A title with more than one field is never one of the skipped texts. */
  lemma NotSkipped(title: string)
    requires |Split(title, '_')| > 1
    ensures !Skipped(title)
  {
    if title == "Parent Directory" {
      assert title == "Parent " + "Directory";
      assert '_' !in "Parent " && '_' !in "Directory";
      SplitNoSeparator(title, '_');
    }
  }

  /** `sTime.Before(s.startTime) && eTime.After(s.endTime)`: the entry's
      validity strictly contains the product window. */
  function Covers(e: Entry, p: Product): (r: bool)
    ensures r ==> e.validStart != p.startTime && e.validEnd != p.endTime
  {
    Clock.Before(e.validStart, p.startTime) && Clock.Before(p.endTime, e.validEnd)
  }

  /** Containment is strict and chronological: the entry must start at an
      instant strictly before the product and end strictly after it, so an
      entry sharing either boundary with the product does not cover it. */
  lemma CoversChronological(e: Entry, p: Product)
    requires Clock.Valid(e.validStart) && Clock.Valid(e.validEnd)
    requires Clock.Valid(p.startTime) && Clock.Valid(p.endTime)
    ensures Covers(e, p) <==>
      Clock.Instant(e.validStart) < Clock.Instant(p.startTime) && Clock.Instant(p.endTime) < Clock.Instant(e.validEnd)
    ensures e.validStart == p.startTime || e.validEnd == p.endTime ==> !Covers(e, p)
  {
    Clock.BeforeIsChronological(e.validStart, p.startTime);
    Clock.BeforeIsChronological(p.endTime, e.validEnd);
  }

  /** A row that reads cleanly (skipped rows included). */
  predicate WellFormed(title: string) {
    ReadRow(title).Ok?
  }

  /** A row whose entry covers the product. */
  predicate Qualifies(p: Product, title: string) {
    var r := ReadRow(title);
    r.Ok? && r.value.Some? && Covers(r.value.value, p)
  }

  // ---------------------------------------------------------------------------
  // The fold over the listing
  // ---------------------------------------------------------------------------

  /** The sentinel's `orbitUrl` and `orbitName` fields. */
  datatype Selection = Selection(orbitUrl: string, orbitName: string)

  /** The fields of a freshly allocated sentinel. */
  const NoSelection := Selection("", "")

  /** One run of the `Each` callback: a covering row overwrites both fields;
      its `return` leaves only this callback, not the iteration. */
  function Step(url: string, p: Product, acc: Selection, title: string): (r: Outcome<Selection>)
    ensures r.Ok? <==> WellFormed(title)
    ensures Qualifies(p, title) ==> r == Ok(Selection(url + title, title))
    ensures WellFormed(title) && !Qualifies(p, title) ==> r == Ok(acc)
    ensures !r.Error?
  {
    match ReadRow(title)
    case Ok(None) => Ok(acc)
    case Ok(Some(e)) => if Covers(e, p) then Ok(Selection(url + title, title)) else Ok(acc)
    case Error(f) => Error(f)
    case Panic(i, n) => Panic(i, n)
    case Fatal(f) => Fatal(f)
  }

  /** `doc.Find("tr td").Each(callback)`: the callback applied to the link
      texts in listing order, starting from the sentinel's current fields. */
  function Scan(url: string, p: Product, rows: seq<string>, acc: Selection): (r: Outcome<Selection>)
    ensures r.Ok? ==>
      || r.value == acc
      || exists i :: 0 <= i < |rows| && Qualifies(p, rows[i]) && r.value == Selection(url + rows[i], rows[i])
    ensures !r.Ok? ==> exists i :: 0 <= i < |rows| && !WellFormed(rows[i])
    ensures !r.Error?
    decreases |rows|
  {
    if |rows| == 0 then Ok(acc)
    else
      var step := Step(url, p, acc, rows[0]);
      if !step.Ok? then step
      else
        var next := step.value;
        var r := Scan(url, p, rows[1..], next);
        assert r.Ok? && r.value != next ==>
          exists i :: 0 <= i < |rows| && Qualifies(p, rows[i]) && r.value == Selection(url + rows[i], rows[i]) by {
          if r.Ok? && r.value != next {
            var i :| 0 <= i < |rows[1..]| && Qualifies(p, rows[1..][i]) && r.value == Selection(url + rows[1..][i], rows[1..][i]);
            assert rows[i + 1] == rows[1..][i];
          }
        }
        assert !r.Ok? ==> exists i :: 0 <= i < |rows| && !WellFormed(rows[i]) by {
          if !r.Ok? {
            var i :| 0 <= i < |rows[1..]| && !WellFormed(rows[1..][i]);
            assert rows[i + 1] == rows[1..][i];
          }
        }
        r
  }

  /** With every row well formed and none covering the product, the fields
      are left as they were. */
  lemma {:induction false} ScanNoMatch(url: string, p: Product, rows: seq<string>, acc: Selection)
    requires forall i :: 0 <= i < |rows| ==> WellFormed(rows[i]) && !Qualifies(p, rows[i])
    ensures Scan(url, p, rows, acc) == Ok(acc)
    decreases |rows|
  {
    if |rows| > 0 {
      assert WellFormed(rows[0]) && !Qualifies(p, rows[0]);
      ScanNoMatch(url, p, rows[1..], acc);
    }
  }

  /** Last match wins: with every row well formed, the result is the last
      covering row, whatever covered before it. */
  lemma {:induction false} ScanLastMatch(url: string, p: Product, rows: seq<string>, acc: Selection, i: nat)
    requires forall j :: 0 <= j < |rows| ==> WellFormed(rows[j])
    requires i < |rows| && Qualifies(p, rows[i])
    requires forall j :: i < j < |rows| ==> !Qualifies(p, rows[j])
    ensures Scan(url, p, rows, acc) == Ok(Selection(url + rows[i], rows[i]))
    decreases |rows|
  {
    var next := Step(url, p, acc, rows[0]).value;
    if i == 0 {
      ScanNoMatch(url, p, rows[1..], next);
    } else {
      ScanLastMatch(url, p, rows[1..], next, i - 1);
    }
  }

  /** The first row that does not read cleanly decides the outcome: the
      panic or fatal error it raises, with no selection. */
  lemma {:induction false} ScanFirstBroken(url: string, p: Product, rows: seq<string>, acc: Selection, i: nat)
    requires i < |rows| && !WellFormed(rows[i])
    requires forall j :: 0 <= j < i ==> WellFormed(rows[j])
    ensures Scan(url, p, rows, acc) == Propagate(ReadRow(rows[i]))
    decreases |rows|
  {
    if i > 0 {
      var next := Step(url, p, acc, rows[0]).value;
      ScanFirstBroken(url, p, rows[1..], next, i - 1);
    }
  }

  /** Starting from a fresh sentinel over a well-formed listing, `orbitName`
      ends non-empty exactly when some row covers the product. */
  lemma {:induction false} ScanFinds(url: string, p: Product, rows: seq<string>)
    requires forall j :: 0 <= j < |rows| ==> WellFormed(rows[j])
    ensures Scan(url, p, rows, NoSelection).Ok?
    ensures Scan(url, p, rows, NoSelection).value.orbitName != ""
        <==> exists j :: 0 <= j < |rows| && Qualifies(p, rows[j])
  {
    if exists j :: 0 <= j < |rows| && Qualifies(p, rows[j]) {
      ScanMatchNamed(url, p, rows, NoSelection);
    } else {
      ScanNoMatch(url, p, rows, NoSelection);
    }
  }

  /** Once a covering row has been seen the name stays non-empty: covering
      titles are never the empty link text. */
  lemma {:induction false} ScanMatchNamed(url: string, p: Product, rows: seq<string>, acc: Selection)
    requires forall j :: 0 <= j < |rows| ==> WellFormed(rows[j])
    requires exists j :: 0 <= j < |rows| && Qualifies(p, rows[j])
    ensures Scan(url, p, rows, acc).Ok? && Scan(url, p, rows, acc).value.orbitName != ""
    decreases |rows|
  {
    var next := Step(url, p, acc, rows[0]).value;
    if Qualifies(p, rows[0]) {
      assert !Skipped(rows[0]);
      ScanNamedStays(url, p, rows[1..], next);
    } else {
      var j :| 0 <= j < |rows| && Qualifies(p, rows[j]);
      assert j > 0 && rows[1..][j - 1] == rows[j];
      ScanMatchNamed(url, p, rows[1..], next);
    }
  }

  lemma {:induction false} ScanNamedStays(url: string, p: Product, rows: seq<string>, acc: Selection)
    requires forall j :: 0 <= j < |rows| ==> WellFormed(rows[j])
    requires acc.orbitName != ""
    ensures Scan(url, p, rows, acc).Ok? && Scan(url, p, rows, acc).value.orbitName != ""
  {
    var r := Scan(url, p, rows, acc);
    if r.value != acc {
      var i :| 0 <= i < |rows| && Qualifies(p, rows[i]) && r.value == Selection(url + rows[i], rows[i]);
      assert !Skipped(rows[i]);
    }
  }

  /** The listing with the rows the callback skips taken out. */
  function Unskipped(rows: seq<string>): (r: seq<string>)
    ensures forall i :: 0 <= i < |r| ==> !Skipped(r[i])
    decreases |rows|
  {
    if |rows| == 0 then []
    else if Skipped(rows[0]) then Unskipped(rows[1..])
    else [rows[0]] + Unskipped(rows[1..])
  }

  /** Empty and `Parent Directory` rows never affect the outcome. */
  lemma {:induction false} ScanIgnoresSkipped(url: string, p: Product, rows: seq<string>, acc: Selection)
    ensures Scan(url, p, Unskipped(rows), acc) == Scan(url, p, rows, acc)
    decreases |rows|
  {
    if |rows| > 0 {
      if Skipped(rows[0]) {
        ScanIgnoresSkipped(url, p, rows[1..], acc);
      } else {
        var u := [rows[0]] + Unskipped(rows[1..]);
        assert u[0] == rows[0] && u[1..] == Unskipped(rows[1..]);
        match Step(url, p, acc, rows[0])
        case Ok(next) => ScanIgnoresSkipped(url, p, rows[1..], next);
        case _ =>
      }
    }
  }
}

=== FILE: clock.dfy ===
/** Calendar timestamps as the orbit resolver uses them: Go's `time.Parse`
    with the layout `20060102T150405` (optionally behind a literal prefix and
    in front of a literal suffix), `Time.Format("2006/01")`, and the
    `Before`/`After` comparisons. Every time involved is UTC, so a timestamp
    is a plain calendar record with second precision. */
module Clock {
  import opened Text
  import opened Outcomes

  datatype DateTime = DateTime(year: nat, month: nat, day: nat, hour: nat, minute: nat, second: nat)

  /** The Go reference layout for the timestamp part of every token. */
  const StampLayout := "20060102T150405"

  /** Gregorian leap years. */
  predicate IsLeap(year: nat) {
    year % 4 == 0 && (year % 100 != 0 || year % 400 == 0)
  }

  /** Days before the first of each month in a common year (index 0 is
      January); index 12 is the length of the year. */
  const DaysBefore: seq<nat> := [0, 31, 59, 90, 120, 151, 181, 212, 243, 273, 304, 334, 365]

  function DaysIn(year: nat, month: nat): (n: nat)
    requires 1 <= month <= 12
    ensures 28 <= n <= 31
  {
    if month == 2 && IsLeap(year) then 29 else DaysBefore[month] - DaysBefore[month - 1]
  }

  /** What a token can denote: a four-digit year, a real month and day of
      that month, and a time of day without leap seconds. */
  predicate Valid(t: DateTime) {
    && t.year <= 9999
    && 1 <= t.month <= 12
    && 1 <= t.day <= DaysIn(t.year, t.month)
    && t.hour < 24
    && t.minute < 60
    && t.second < 60
  }

  // ---------------------------------------------------------------------------
  // Formatting and parsing
  // ---------------------------------------------------------------------------

  /** `t.Format("20060102T150405")`. */
  function Format(t: DateTime): (s: string)
    ensures |s| == 15
  {
    Pad(t.year, 4) + Pad(t.month, 2) + Pad(t.day, 2) + "T" + Pad(t.hour, 2) + Pad(t.minute, 2) + Pad(t.second, 2)
  }

  /** `t.Format("2006/01")`, the year-month part of a catalog URL. */
  function FormatYearMonth(t: DateTime): (s: string)
    ensures |s| == 7 && s[4] == '/'
    ensures AllDigits(s[..4]) && AllDigits(s[5..])
  {
    Pad(t.year, 4) + "/" + Pad(t.month, 2)
  }

  /** The fifteen characters `YYYYMMDDThhmmss` read as a timestamp. Go reads
      every field as exactly two (the year as exactly four) digits: a one-digit
      hour is accepted on its own but then leaves the minute without a digit,
      so in this layout it always fails. Range checks are Go's: month 1-12,
      day within the month, hour below 24, minute and second below 60. */
  function ReadStamp(s: string): (r: Option<DateTime>)
    requires |s| == 15
  {
    if AllDigits(s[..8]) && s[8] == 'T' && AllDigits(s[9..]) then
      var t := DateTime(Value(s[0..4]), Value(s[4..6]), Value(s[6..8]),
                        Value(s[9..11]), Value(s[11..13]), Value(s[13..15]));
      if Valid(t) then Some(t) else None
    else None
  }

  /** `time.Parse(prefix + "20060102T150405" + suffix, value)` with literal
      `prefix` and `suffix`: the value must carry the prefix, a valid
      timestamp and the suffix, and nothing else (Go rejects leftover text). */
  function Parse(prefix: string, suffix: string, value: string): (r: Option<DateTime>)
    ensures r.Some? ==> Valid(r.value)
  {
    if |value| != |prefix| + 15 + |suffix| then None
    else if value[..|prefix|] != prefix || value[|prefix| + 15..] != suffix then None
    else ReadStamp(value[|prefix|..|prefix| + 15])
  }

  /** A token that parses is the prefix, the formatted timestamp and the suffix. */
  lemma ParsedToken(prefix: string, suffix: string, value: string)
    requires Parse(prefix, suffix, value).Some?
    ensures value == prefix + Format(Parse(prefix, suffix, value).value) + suffix
  {
    var stamp := value[|prefix|..|prefix| + 15];
    FormatReadStamp(stamp);
    assert value == value[..|prefix|] + stamp + value[|prefix| + 15..];
  }

  /** A stamp that reads successfully is the formatting of what it reads as. */
  lemma FormatReadStamp(s: string)
    requires |s| == 15
    requires ReadStamp(s).Some?
    ensures Format(ReadStamp(s).value) == s
  {
    PadValue(s[0..4]);
    PadValue(s[4..6]);
    PadValue(s[6..8]);
    PadValue(s[9..11]);
    PadValue(s[11..13]);
    PadValue(s[13..15]);
    assert s == s[0..4] + s[4..6] + s[6..8] + [s[8]] + s[9..11] + s[11..13] + s[13..15];
  }

  /** Round trip: a valid timestamp formatted between the literals parses back
      to itself. Together with `ParsedToken` this characterises the accepted
      tokens exactly. */
  lemma ParseFormat(prefix: string, suffix: string, t: DateTime)
    requires Valid(t)
    ensures Parse(prefix, suffix, prefix + Format(t) + suffix) == Some(t)
  {
    var f := Format(t);
    var value := prefix + f + suffix;
    assert value[..|prefix|] == prefix;
    assert value[|prefix| + 15..] == suffix;
    assert value[|prefix|..|prefix| + 15] == f;
    ReadFormat(t);
  }

  /** The stamp part of the round trip. */
  lemma ReadFormat(t: DateTime)
    requires Valid(t)
    ensures ReadStamp(Format(t)) == Some(t)
  {
    var f := Format(t);
    FormatFields(t);
    assert Pow10(2) == 100 && Pow10(4) == 10000;
    ValuePad(t.year, 4);
    ValuePad(t.month, 2);
    ValuePad(t.day, 2);
    ValuePad(t.hour, 2);
    ValuePad(t.minute, 2);
    ValuePad(t.second, 2);
  }

  /** Where each field sits in a formatted stamp. */
  lemma FormatFields(t: DateTime)
    ensures var f := Format(t);
      && f[0..4] == Pad(t.year, 4) && f[4..6] == Pad(t.month, 2) && f[6..8] == Pad(t.day, 2)
      && f[8] == 'T'
      && f[9..11] == Pad(t.hour, 2) && f[11..13] == Pad(t.minute, 2) && f[13..15] == Pad(t.second, 2)
      && AllDigits(f[..8]) && AllDigits(f[9..])
  {
    var date := Pad(t.year, 4) + Pad(t.month, 2) + Pad(t.day, 2);
    var time := Pad(t.hour, 2) + Pad(t.minute, 2) + Pad(t.second, 2);
    var f := Format(t);
    assert f == date + "T" + time;
    assert f[..8] == date;
    assert f[9..] == time;
  }

  /** A formatted stamp holds digits and one `T`, so it never contains the
      field separator of product names and row titles. */
  lemma FormatNoUnderscore(t: DateTime)
    ensures '_' !in Format(t)
  {
    var f := Format(t);
    FormatFields(t);
    forall i | 0 <= i < |f|
      ensures f[i] != '_'
    {
      if i < 8 { assert f[..8][i] == f[i]; }
      else if i > 8 { assert f[9..][i - 9] == f[i]; }
    }
  }

  /** Parsing and formatting back are inverse in both directions. */
  lemma ParseIff(prefix: string, suffix: string, value: string, t: DateTime)
    ensures Parse(prefix, suffix, value) == Some(t) <==> Valid(t) && value == prefix + Format(t) + suffix
  {
    if Valid(t) && value == prefix + Format(t) + suffix {
      ParseFormat(prefix, suffix, t);
    }
    if Parse(prefix, suffix, value) == Some(t) {
      ParsedToken(prefix, suffix, value);
    }
  }

  /** The year-month of a parsed token is its first six characters, re-punctuated. */
  lemma FormatYearMonthOfParse(prefix: string, suffix: string, value: string)
    requires Parse(prefix, suffix, value).Some?
    ensures var p := |prefix|;
      FormatYearMonth(Parse(prefix, suffix, value).value) == value[p..p + 4] + "/" + value[p + 4..p + 6]
  {
    var t := Parse(prefix, suffix, value).value;
    var p := |prefix|;
    ParsedToken(prefix, suffix, value);
    assert value[p..p + 15] == Format(t);
    assert value[p..p + 4] == Format(t)[0..4] == Pad(t.year, 4);
    assert value[p + 4..p + 6] == Format(t)[4..6] == Pad(t.month, 2);
  }

  // ---------------------------------------------------------------------------
  // Order
  // ---------------------------------------------------------------------------

  /** `a.Before(b)`, read as the lexicographic order of the calendar fields:
      strict (nothing is before itself) and never against the years. */
  function Before(a: DateTime, b: DateTime): (r: bool)
    ensures r ==> a != b
    ensures r ==> a.year <= b.year
  {
    if a.year != b.year then a.year < b.year
    else if a.month != b.month then a.month < b.month
    else if a.day != b.day then a.day < b.day
    else if a.hour != b.hour then a.hour < b.hour
    else if a.minute != b.minute then a.minute < b.minute
    else a.second < b.second
  }

  function YearLength(year: nat): (days: nat) {
    if IsLeap(year) then 366 else 365
  }

  /** Days from 0000-01-01 to the first of January of `year` (proleptic Gregorian). */
  function DaysBeforeYear(year: nat): (days: nat) {
    if year == 0 then 0 else DaysBeforeYear(year - 1) + YearLength(year - 1)
  }

  function DaysBeforeMonth(year: nat, month: nat): (days: nat)
    requires 1 <= month <= 12
  {
    DaysBefore[month - 1] + if IsLeap(year) && month > 2 then 1 else 0
  }

  /** Seconds since 0000-01-01T00:00:00 UTC: the instant Go compares. */
  function Instant(t: DateTime): (seconds: int)
    requires 1 <= t.month <= 12
  {
    var days := DaysBeforeYear(t.year) + DaysBeforeMonth(t.year, t.month) + t.day - 1;
    days * 86400 + t.hour * 3600 + t.minute * 60 + t.second
  }

  lemma {:induction false} DaysBeforeYearGrows(y: nat, z: nat)
    requires y < z
    ensures DaysBeforeYear(y) + YearLength(y) <= DaysBeforeYear(z)
    decreases z
  {
    if y < z - 1 {
      DaysBeforeYearGrows(y, z - 1);
    }
  }

  /** A valid day lies inside its month, and the month inside its year. */
  lemma DayInYear(t: DateTime)
    requires Valid(t)
    ensures DaysBeforeMonth(t.year, t.month) + t.day <= YearLength(t.year)
    ensures t.month < 12 ==> DaysBeforeMonth(t.year, t.month) + t.day <= DaysBeforeMonth(t.year, t.month + 1)
  {
  }

  lemma MonthsGrow(year: nat, m: nat, n: nat)
    requires 1 <= m < n <= 12
    ensures DaysBeforeMonth(year, m + 1) <= DaysBeforeMonth(year, n)
  {
  }

  /** The day number orders valid dates as the calendar fields do. */
  lemma DayOrder(a: DateTime, b: DateTime)
    requires Valid(a) && Valid(b)
    requires a.year < b.year || (a.year == b.year && (a.month < b.month || (a.month == b.month && a.day < b.day)))
    ensures DaysBeforeYear(a.year) + DaysBeforeMonth(a.year, a.month) + a.day
         < DaysBeforeYear(b.year) + DaysBeforeMonth(b.year, b.month) + b.day
  {
    DayInYear(a);
    if a.year < b.year {
      DaysBeforeYearGrows(a.year, b.year);
    } else if a.month < b.month {
      MonthsGrow(a.year, a.month, b.month);
    }
  }

  /** `Before` on the calendar fields is exactly the order of instants, which
      is what Go's `Before` and `After` compare. */
  lemma BeforeIsChronological(a: DateTime, b: DateTime)
    requires Valid(a) && Valid(b)
    ensures Before(a, b) <==> Instant(a) < Instant(b)
  {
    var da := DaysBeforeYear(a.year) + DaysBeforeMonth(a.year, a.month) + a.day - 1;
    var db := DaysBeforeYear(b.year) + DaysBeforeMonth(b.year, b.month) + b.day - 1;
    var sa := a.hour * 3600 + a.minute * 60 + a.second;
    var sb := b.hour * 3600 + b.minute * 60 + b.second;
    assert 0 <= sa < 86400 && 0 <= sb < 86400;
    assert Instant(a) == da * 86400 + sa && Instant(b) == db * 86400 + sb;
    if (a.year, a.month, a.day) == (b.year, b.month, b.day) {
      assert da == db;
    } else if a.year < b.year || (a.year == b.year && (a.month < b.month || (a.month == b.month && a.day < b.day))) {
      DayOrder(a, b);
      assert da + 1 <= db;
      assert Instant(a) < Instant(b);
    } else {
      DayOrder(b, a);
      assert db + 1 <= da;
      assert Instant(b) < Instant(a);
    }
  }
}

=== FILE: identifier.dfy ===
/** The product-name parser: `(*sentinel).parse` reads the sensor type and
    the acquisition window out of a Sentinel-1 product directory name such as
    `S1A_IW_SLC__1SDV_20200101T060000_20200101T063000_…`. */
module Identifier {
  import opened Text
  import opened Outcomes
  import Clock

  /** What `parse` stores into the sentinel: fields 0, 5 and 6 of the name. */
  datatype Product = Product(sensorType: string, startTime: Clock.DateTime, endTime: Clock.DateTime)

  /** `parse`: split the name on `_`, take field 0 as the sensor type and
      decode fields 5 and 6 with the layout `20060102T150405`.
      - fewer than seven fields: the index expression `r[5]` (or `r[6]` when
        there are exactly six) panics;
      - the start token is decoded first, and its error is returned before
        the end token is looked at;
      - on success the fields are those of the name (see `ParsedFields`). */
  function Parse(dirname: string): (r: Outcome<Product>)
    ensures var f := Split(dirname, '_');
      && (r.Panic? <==> |f| < 7)
      && (r.Panic? ==> r.index == (if |f| <= 5 then 5 else 6) && r.length == |f|)
      && (r.Ok? <==> |f| >= 7 && Clock.Parse("", "", f[5]).Some? && Clock.Parse("", "", f[6]).Some?)
      && (|f| >= 7 && Clock.Parse("", "", f[5]).None? ==> r == Error(TimeParse(Clock.StampLayout, f[5])))
      && (|f| >= 7 && Clock.Parse("", "", f[5]).Some? && Clock.Parse("", "", f[6]).None? ==>
            r == Error(TimeParse(Clock.StampLayout, f[6])))
  {
    var fields := Split(dirname, '_');
    if |fields| <= 5 then Panic(5, |fields|)
    else if |fields| == 6 then Panic(6, |fields|)
    else
      match Clock.Parse("", "", fields[5])
      case None => Error(TimeParse(Clock.StampLayout, fields[5]))
      case Some(start) =>
        match Clock.Parse("", "", fields[6])
        case None => Error(TimeParse(Clock.StampLayout, fields[6]))
        case Some(end) => Ok(Product(fields[0], start, end))
  }

  /** On success the sensor type is the text before the first `_`, and the
      two times are valid timestamps that format back to fields 5 and 6. */
  lemma ParsedFields(dirname: string)
    requires Parse(dirname).Ok?
    ensures var p := Parse(dirname).value;
      && '_' !in p.sensorType
      && |p.sensorType| < |dirname|
      && dirname[..|p.sensorType| + 1] == p.sensorType + "_"
    ensures var p := Parse(dirname).value;
      && Clock.Valid(p.startTime) && Clock.Format(p.startTime) == Split(dirname, '_')[5]
      && Clock.Valid(p.endTime) && Clock.Format(p.endTime) == Split(dirname, '_')[6]
  {
    SplitHead(dirname, '_');
    var f := Split(dirname, '_');
    Clock.ParsedToken("", "", f[5]);
    Clock.ParsedToken("", "", f[6]);
    assert "" + Clock.Format(Parse(dirname).value.startTime) + "" == f[5];
    assert "" + Clock.Format(Parse(dirname).value.endTime) + "" == f[6];
  }

  /** Round trip: a name assembled from `_`-free fields, with fields 5 and 6
      replaced by two formatted valid timestamps, parses back to field 0 and
      those timestamps, whatever the other fields hold. */
  lemma ParseName(fields: seq<string>, start: Clock.DateTime, end: Clock.DateTime)
    requires |fields| >= 7
    requires forall i :: 0 <= i < |fields| ==> '_' !in fields[i]
    requires Clock.Valid(start) && Clock.Valid(end)
    ensures Parse(Join(fields[..5] + [Clock.Format(start), Clock.Format(end)] + fields[7..], '_'))
      == Ok(Product(fields[0], start, end))
  {
    var named := fields[..5] + [Clock.Format(start), Clock.Format(end)] + fields[7..];
    Clock.FormatNoUnderscore(start);
    Clock.FormatNoUnderscore(end);
    forall i | 0 <= i < |named|
      ensures '_' !in named[i]
    {
      if i < 5 || i >= 7 { assert named[i] == fields[i]; }
    }
    StampToken(start);
    StampToken(end);
    assert named[5] == Clock.Format(start) && named[6] == Clock.Format(end);
    ParseJoined(named, start, end);
  }

  /** A bare formatted stamp is a token of the layout `20060102T150405`. */
  lemma StampToken(t: Clock.DateTime)
    requires Clock.Valid(t)
    ensures Clock.Parse("", "", Clock.Format(t)) == Some(t)
  {
    Clock.ParseFormat("", "", t);
    assert "" + Clock.Format(t) + "" == Clock.Format(t);
  }

  lemma ParseJoined(fields: seq<string>, start: Clock.DateTime, end: Clock.DateTime)
    requires |fields| >= 7
    requires forall i :: 0 <= i < |fields| ==> '_' !in fields[i]
    requires Clock.Parse("", "", fields[5]) == Some(start) && Clock.Parse("", "", fields[6]) == Some(end)
    ensures Parse(Join(fields, '_')) == Ok(Product(fields[0], start, end))
  {
    SplitJoin(fields, '_');
  }
}

=== FILE: intended.dfy ===
/** The resolver as the code evidently aims at it, next to the code as
    written. The callback's `return` after recording a covering row and the
    `RESORB` branch of `newSentinel` both point this way. The row scan
    selects the FIRST covering row, yet still reads every row, so a broken
    row stays fatal. The restituted-orbit catalog is searched when
    the precise-orbit listing has no covering row. With no covering row in
    either, resolution fails. The lemmas at the end
    relate this to `Catalog.Scan` and `Resolver.NewSentinel`. */
module Intended {
  import opened Outcomes
  import opened Identifier
  import opened Catalog
  import opened Resolver

  /** The row scan with the callback's `return` read as "keep the first":
      every row is still read, so a broken row anywhere ends the scan as it
      does in the code as written, and otherwise the first covering row is
      selected instead of the last. */
  function ScanFirst(url: string, p: Product, rows: seq<string>): (r: Outcome<Option<Selection>>)
    ensures r.Ok? && r.value.Some? ==>
      exists i :: 0 <= i < |rows| && Qualifies(p, rows[i]) && r.value.value == Selection(url + rows[i], rows[i])
    ensures !r.Error?
    decreases |rows|
  {
    if |rows| == 0 then Ok(None)
    else
      var row := ReadRow(rows[0]);
      if !row.Ok? then Propagate(row)
      else
        var rest := ScanFirst(url, p, rows[1..]);
        if !rest.Ok? then rest
        else if row.value.Some? && Covers(row.value.value, p) then Ok(Some(Selection(url + rows[0], rows[0])))
        else
          assert rest.value.Some? ==>
            exists i :: 0 <= i < |rows| && Qualifies(p, rows[i]) && rest.value.value == Selection(url + rows[i], rows[i]) by {
            if rest.value.Some? {
              var i :| 0 <= i < |rows[1..]| && Qualifies(p, rows[1..][i]) && rest.value.value == Selection(url + rows[1..][i], rows[1..][i]);
              assert rows[i + 1] == rows[1..][i];
            }
          }
          rest
  }

  /** First match wins: over a well-formed listing the first covering row is
      selected, whatever covering rows follow it. */
  lemma {:induction false} ScanFirstMatch(url: string, p: Product, rows: seq<string>, i: nat)
    requires forall j :: 0 <= j < |rows| ==> WellFormed(rows[j])
    requires i < |rows| && Qualifies(p, rows[i])
    requires forall j :: 0 <= j < i ==> !Qualifies(p, rows[j])
    ensures ScanFirst(url, p, rows) == Ok(Some(Selection(url + rows[i], rows[i])))
    decreases |rows|
  {
    if i > 0 {
      assert WellFormed(rows[0]) && !Qualifies(p, rows[0]);
      ScanFirstMatch(url, p, rows[1..], i - 1);
    } else {
      ScanFirstWellFormed(url, p, rows[1..]);
    }
  }

  /** Over a well-formed listing the first-match scan succeeds. */
  lemma {:induction false} ScanFirstWellFormed(url: string, p: Product, rows: seq<string>)
    requires forall j :: 0 <= j < |rows| ==> WellFormed(rows[j])
    ensures ScanFirst(url, p, rows).Ok?
    decreases |rows|
  {
    if |rows| > 0 {
      assert WellFormed(rows[0]);
      ScanFirstWellFormed(url, p, rows[1..]);
    }
  }

  /** Strictness is kept: the first broken row decides the outcome, even
      when a covering row comes before it. */
  lemma {:induction false} ScanFirstBroken(url: string, p: Product, rows: seq<string>, i: nat)
    requires i < |rows| && !WellFormed(rows[i])
    requires forall j :: 0 <= j < i ==> WellFormed(rows[j])
    ensures ScanFirst(url, p, rows) == Propagate(ReadRow(rows[i]))
    decreases |rows|
  {
    if i > 0 {
      assert WellFormed(rows[0]);
      ScanFirstBroken(url, p, rows[1..], i - 1);
    }
  }

  /** A well-formed listing without a covering row yields no selection. */
  lemma {:induction false} ScanFirstNone(url: string, p: Product, rows: seq<string>)
    requires forall j :: 0 <= j < |rows| ==> WellFormed(rows[j]) && !Qualifies(p, rows[j])
    ensures ScanFirst(url, p, rows) == Ok(None)
    decreases |rows|
  {
    if |rows| > 0 {
      assert WellFormed(rows[0]) && !Qualifies(p, rows[0]);
      ScanFirstNone(url, p, rows[1..]);
    }
  }

  /** One catalog search that reports whether it found a covering row. */
  function SearchFirst(kind: string, p: Product, catalog: string -> Response): (r: Run<Option<Selection>>)
    ensures r.queries == [CatalogUrl(kind, p.sensorType, p.startTime)]
    ensures !r.outcome.Error?
    ensures var response := catalog(CatalogUrl(kind, p.sensorType, p.startTime));
      r.outcome.Ok? ==> response.Page? && response.status == 200 && response.document.Some?
    ensures var url := CatalogUrl(kind, p.sensorType, p.startTime);
      var response := catalog(url);
      r.outcome.Ok? && r.outcome.value.Some? ==>
        exists i :: 0 <= i < |response.document.value| && Qualifies(p, response.document.value[i])
          && r.outcome.value.value == Selection(url + response.document.value[i], response.document.value[i])
    ensures var url := CatalogUrl(kind, p.sensorType, p.startTime);
      var response := catalog(url);
      response.Page? && response.status == 200 && response.document.Some? ==>
        r.outcome == ScanFirst(url, p, response.document.value)
  {
    var url := CatalogUrl(kind, p.sensorType, p.startTime);
    match catalog(url)
    case GetError => Run([url], Fatal(Unreachable))
    case Page(status, document) =>
      if status != 200 then Run([url], Fatal(BadStatus(status)))
      else if document.None? then Run([url], Fatal(Unreadable))
      else Run([url], ScanFirst(url, p, document.value))
  }

  /** Resolution in the intended preference order: precise orbits first,
      restituted orbits after a miss, as the `RESORB` branch of
      `newSentinel` aims at. A name that does not parse fails before
      anything is fetched, as in `newSentinel`; otherwise `ResolveFrom`
      continues with the parsed product. */
  function Resolve(dirname: string, catalog: string -> Response): (r: Run<Sentinel>)
    ensures !Parse(dirname).Ok? ==> r.queries == [] && r.outcome == Propagate(Parse(dirname))
    ensures r.outcome.Ok? ==> Parse(dirname).Ok? && r.outcome.value.product == Parse(dirname).value
    ensures r.outcome.Error? ==> Parse(dirname).Error? || r.outcome.fault == NoOrbit
  {
    match Parse(dirname)
    case Ok(p) => ResolveFrom(dirname, p, catalog)
    case Error(f) => Run([], Error(f))
    case Panic(i, n) => Run([], Panic(i, n))
    case Fatal(f) => Run([], Fatal(f))
  }

  /** Precise orbits first, restituted orbits only when the precise listing
      has no covering row, and `NoOrbit` when neither has one. */
  function ResolveFrom(dirname: string, p: Product, catalog: string -> Response): (r: Run<Sentinel>)
    ensures var precise := CatalogUrl(PreciseOrbit, p.sensorType, p.startTime);
      var restituted := CatalogUrl(RestitutedOrbit, p.sensorType, p.startTime);
      && (r.queries == [precise] || r.queries == [precise, restituted])
      && (r.queries == [precise, restituted] <==> SearchFirst(PreciseOrbit, p, catalog).outcome == Ok(None))
    ensures r.outcome.Ok? ==>
      && r.outcome.value.dirname == dirname
      && r.outcome.value.product == p
      && r.outcome.value.orbit.orbitName != ""
    ensures r.outcome.Error? ==> r.outcome.fault == NoOrbit
    ensures var precise := SearchFirst(PreciseOrbit, p, catalog).outcome;
      var restituted := SearchFirst(RestitutedOrbit, p, catalog).outcome;
      r.outcome == Error(NoOrbit) <==> precise == Ok(None) && restituted == Ok(None)
    ensures var precise := SearchFirst(PreciseOrbit, p, catalog).outcome;
      var restituted := SearchFirst(RestitutedOrbit, p, catalog).outcome;
      r.outcome.Ok? ==>
        || (precise.Ok? && precise.value.Some? && r.outcome.value.orbit == precise.value.value)
        || (precise == Ok(None) && restituted.Ok? && restituted.value.Some? && r.outcome.value.orbit == restituted.value.value)
    ensures var precise := SearchFirst(PreciseOrbit, p, catalog).outcome;
      && (precise.Ok? && precise.value.Some? ==> r.outcome == Ok(Sentinel(dirname, p, precise.value.value)))
      && (!precise.Ok? ==> r.outcome == Propagate(precise))
    ensures var precise := SearchFirst(PreciseOrbit, p, catalog).outcome;
      var restituted := SearchFirst(RestitutedOrbit, p, catalog).outcome;
      precise == Ok(None) ==>
        && (restituted.Ok? && restituted.value.Some? ==> r.outcome == Ok(Sentinel(dirname, p, restituted.value.value)))
        && (!restituted.Ok? ==> r.outcome == Propagate(restituted))
  {
    var first := SearchFirst(PreciseOrbit, p, catalog);
    if first.outcome.Ok? && first.outcome.value.Some? then
      Run(first.queries, Ok(Sentinel(dirname, p, first.outcome.value.value)))
    else if !first.outcome.Ok? then Run(first.queries, Propagate(first.outcome))
    else
      var second := SearchFirst(RestitutedOrbit, p, catalog);
      var outcome :=
        if !second.outcome.Ok? then Propagate(second.outcome)
        else if second.outcome.value.None? then Error(NoOrbit)
        else Ok(Sentinel(dirname, p, second.outcome.value.value));
      Run(first.queries + second.queries, outcome)
  }

  /** A precise-orbit hit in a well-formed `POEORB` listing resolves to its
      FIRST covering row, whatever covering rows follow it, after a single
      fetch. */
  lemma ResolveFromFirstPrecise(dirname: string, p: Product, catalog: string -> Response, rows: seq<string>, i: nat)
    requires catalog(CatalogUrl(PreciseOrbit, p.sensorType, p.startTime)) == Page(200, Some(rows))
    requires forall j :: 0 <= j < |rows| ==> WellFormed(rows[j])
    requires i < |rows| && Qualifies(p, rows[i])
    requires forall j :: 0 <= j < i ==> !Qualifies(p, rows[j])
    ensures var url := CatalogUrl(PreciseOrbit, p.sensorType, p.startTime);
      ResolveFrom(dirname, p, catalog) == Run([url], Ok(Sentinel(dirname, p, Selection(url + rows[i], rows[i]))))
  {
    ScanFirstMatch(CatalogUrl(PreciseOrbit, p.sensorType, p.startTime), p, rows, i);
  }

  // ---------------------------------------------------------------------------
  // As written against as intended
  // ---------------------------------------------------------------------------

  /** The leading fields of the precise-orbit titles used below. */
  const OrbitHead := ["S1A", "OPER", "AUX", "POEORB", "OPOD", "20200121T120654"]

  /** Finding: with two covering rows the code as written keeps the LAST one,
      where the callback's `return` right after the assignment aims at the
      FIRST. The product is acquired on 2020-01-01 from 23:30:00 to
      23:40:00; the rows
      are valid from 2019-12-31T22:59:42 to 2020-01-02T00:59:42 and from
      2020-01-01T22:59:42 to 2020-01-03T00:59:42, and both cover it. */
  lemma LastMatchWins(url: string)
    ensures var p := Product("S1A", Clock.DateTime(2020, 1, 1, 23, 30, 0), Clock.DateTime(2020, 1, 1, 23, 40, 0));
      var early := OrbitTitle(OrbitHead, Clock.DateTime(2019, 12, 31, 22, 59, 42), Clock.DateTime(2020, 1, 2, 0, 59, 42));
      var late := OrbitTitle(OrbitHead, Clock.DateTime(2020, 1, 1, 22, 59, 42), Clock.DateTime(2020, 1, 3, 0, 59, 42));
      && early != late
      && Scan(url, p, [early, late], NoSelection) == Ok(Selection(url + late, late))
      && ScanFirst(url, p, [early, late]) == Ok(Some(Selection(url + early, early)))
  {
    var p := Product("S1A", Clock.DateTime(2020, 1, 1, 23, 30, 0), Clock.DateTime(2020, 1, 1, 23, 40, 0));
    var from1, to1 := Clock.DateTime(2019, 12, 31, 22, 59, 42), Clock.DateTime(2020, 1, 2, 0, 59, 42);
    var from2, to2 := Clock.DateTime(2020, 1, 1, 22, 59, 42), Clock.DateTime(2020, 1, 3, 0, 59, 42);
    var early := OrbitTitle(OrbitHead, from1, to1);
    var late := OrbitTitle(OrbitHead, from2, to2);
    ExampleRow(from1, to1);
    ExampleRow(from2, to2);
    var first := Selection(url + early, early);
    var second := Selection(url + late, late);
    assert Step(url, p, NoSelection, early) == Ok(first);
    assert Step(url, p, first, late) == Ok(second);
    assert [early, late][1..] == [late] && [late][1..] == [];
    assert Scan(url, p, [late], first) == Ok(second);
    assert WellFormed(early) && WellFormed(late) && Qualifies(p, early);
    ScanFirstMatch(url, p, [early, late], 0);
  }

  lemma ExampleRow(from: Clock.DateTime, to: Clock.DateTime)
    requires Clock.Valid(from) && Clock.Valid(to)
    ensures ReadRow(OrbitTitle(OrbitHead, from, to)) == Ok(Some(Entry(OrbitTitle(OrbitHead, from, to), from, to)))
  {
    assert forall i :: 0 <= i < 6 ==> '_' !in OrbitHead[i] by {
      assert '_' !in "S1A" && '_' !in "OPER" && '_' !in "AUX";
      assert '_' !in "POEORB" && '_' !in "OPOD" && '_' !in "20200121T120654";
    }
    ReadRowTitle(OrbitHead, from, to);
  }

  /** With exactly one covering row, or none, both scans agree. */
  lemma {:induction false} ScansAgreeOnUniqueMatch(url: string, p: Product, rows: seq<string>)
    requires forall j :: 0 <= j < |rows| ==> WellFormed(rows[j])
    requires forall j, k :: 0 <= j < k < |rows| && Qualifies(p, rows[j]) ==> !Qualifies(p, rows[k])
    ensures Scan(url, p, rows, NoSelection).Ok? && ScanFirst(url, p, rows).Ok?
    ensures ScanFirst(url, p, rows).value == None <==> Scan(url, p, rows, NoSelection).value == NoSelection
    ensures ScanFirst(url, p, rows).value.Some? ==>
      ScanFirst(url, p, rows).value.value == Scan(url, p, rows, NoSelection).value
  {
    if i :| 0 <= i < |rows| && Qualifies(p, rows[i]) {
      ScanLastMatch(url, p, rows, NoSelection, i);
      ScanFirstMatch(url, p, rows, i);
      assert !Skipped(rows[i]);
    } else {
      ScanNoMatch(url, p, rows, NoSelection);
      ScanFirstNone(url, p, rows);
    }
  }

  /** Finding: when the precise-orbit listing has no covering row but the
      restituted one has, the code as written never asks for the restituted
      listing and returns a sentinel with empty `orbitName`, while the
      intended resolver selects the restituted entry. */
  lemma FallbackNeverTaken(dirname: string, p: Product, catalog: string -> Response,
                           precise: seq<string>, restituted: seq<string>, i: nat)
    requires catalog(CatalogUrl(PreciseOrbit, p.sensorType, p.startTime)) == Page(200, Some(precise))
    requires catalog(CatalogUrl(RestitutedOrbit, p.sensorType, p.startTime)) == Page(200, Some(restituted))
    requires forall j :: 0 <= j < |precise| ==> WellFormed(precise[j]) && !Qualifies(p, precise[j])
    requires forall j :: 0 <= j < |restituted| ==> WellFormed(restituted[j])
    requires i < |restituted| && Qualifies(p, restituted[i])
    requires forall j :: 0 <= j < i ==> !Qualifies(p, restituted[j])
    ensures var pUrl := CatalogUrl(PreciseOrbit, p.sensorType, p.startTime);
      var rUrl := CatalogUrl(RestitutedOrbit, p.sensorType, p.startTime);
      && Locate(dirname, p, catalog) == Run([pUrl], Ok(Sentinel(dirname, p, NoSelection)))
      && ResolveFrom(dirname, p, catalog)
           == Run([pUrl, rUrl], Ok(Sentinel(dirname, p, Selection(rUrl + restituted[i], restituted[i]))))
  {
    var pUrl := CatalogUrl(PreciseOrbit, p.sensorType, p.startTime);
    var rUrl := CatalogUrl(RestitutedOrbit, p.sensorType, p.startTime);
    ScanNoMatch(pUrl, p, precise, NoSelection);
    ScanFirstNone(pUrl, p, precise);
    ScanFirstMatch(rUrl, p, restituted, i);
  }

  /** When the precise-orbit listing is well formed and has exactly one
      covering row, the code as written and the intended resolver return the
      same run. */
  lemma AgreeOnUniquePreciseMatch(dirname: string, p: Product, catalog: string -> Response, precise: seq<string>, i: nat)
    requires catalog(CatalogUrl(PreciseOrbit, p.sensorType, p.startTime)) == Page(200, Some(precise))
    requires forall j :: 0 <= j < |precise| ==> WellFormed(precise[j])
    requires i < |precise| && Qualifies(p, precise[i])
    requires forall j :: 0 <= j < |precise| && j != i ==> !Qualifies(p, precise[j])
    ensures Locate(dirname, p, catalog) == ResolveFrom(dirname, p, catalog)
  {
    var pUrl := CatalogUrl(PreciseOrbit, p.sensorType, p.startTime);
    ScanLastMatch(pUrl, p, precise, NoSelection, i);
    ScanFirstMatch(pUrl, p, precise, i);
  }
}

=== FILE: outcomes.dfy ===
/** Result types shared by the model.

    Go reports trouble in three different ways in the orbit resolver, and the
    model keeps them apart because they have different consequences for the
    caller:
    - an `error` value returned to the caller (`Error`),
    - a runtime panic on an out-of-range slice index (`Panic`),
    - `log.Fatal`, which ends the whole process (`Fatal`).
 */
module Outcomes {

  datatype Option<+T> = None | Some(value: T)

  /** What went wrong; the payloads mirror what the Go code reports. */
  datatype Fault =
    /** `time.Parse` rejected `value` for `layout` (Go's `time.ParseError`). */
    | TimeParse(layout: string, value: string)
    /** `http.Get` returned an error. */
    | Unreachable
    /** The catalog answered with a status other than 200. */
    | BadStatus(code: int)
    /** The response body could not be read as an HTML document. */
    | Unreadable
    /** No catalog entry covers the product (only the intended resolver reports this). */
    | NoOrbit

  datatype Outcome<+T> =
    | Ok(value: T)
    | Error(fault: Fault)
    | Panic(index: int, length: int)
    | Fatal(fault: Fault)

  /** Re-types a failure so that it can be handed on unchanged. */
  function Propagate<T, U>(o: Outcome<T>): (r: Outcome<U>)
    requires !o.Ok?
    ensures !r.Ok?
    ensures o.Error? <==> r.Error?
    ensures o.Panic? <==> r.Panic?
    ensures o.Fatal? <==> r.Fatal?
  {
    match o
    case Error(f) => Error(f)
    case Panic(i, n) => Panic(i, n)
    case Fatal(f) => Fatal(f)
  }

  /** An outcome together with the catalog URLs fetched, in order, while computing it. */
  datatype Run<+T> = Run(queries: seq<string>, outcome: Outcome<T>)
}

=== FILE: resolver.dfy ===
/** `newSentinel` and `(*sentinel).search` as written. The network is the
    parameter `catalog`, which maps a URL to what `http.Get` followed by
    goquery's parse delivers for it; every catalog URL fetched is recorded in
    the run's `queries`, in order. */
module Resolver {
  import opened Outcomes
  import opened Identifier
  import opened Catalog

  /** What fetching a listing URL yields. */
  datatype Response =
    /** `http.Get` returned an error. */
    | GetError
    /** An HTTP answer with its status; `document` is the link text of every
        `tr td` cell in page order, or `None` when the body is not a
        readable HTML document. */
    | Page(status: int, document: Option<seq<string>>)

  /** The `sentinel` struct: the directory name, the fields `parse` fills in
      and the fields `search` fills in. */
  datatype Sentinel = Sentinel(dirname: string, product: Product, orbit: Selection)

  /** What `search` leaves behind: its boolean result and the updated sentinel. */
  datatype Searched = Searched(found: bool, sentinel: Sentinel)

  /** The listing URL `search` builds for `kind`. */
  function UrlFor(kind: string, s: Sentinel): (url: string) {
    CatalogUrl(kind, s.product.sensorType, s.product.startTime)
  }

  /** `(*sentinel).search(kind)`: fetch the month's listing (a transport
      error, a status other than 200 or an unreadable body ends the process),
      fold the row callback over it, and report `false` on both return paths
      (sentinel.go:109-112), whether or not a row matched. */
  function Search(kind: string, s: Sentinel, catalog: string -> Response): (r: Run<Searched>)
    ensures r.queries == [UrlFor(kind, s)]
    ensures !r.outcome.Error?
    ensures r.outcome.Ok? ==> !r.outcome.value.found
    ensures r.outcome.Ok? ==>
      && r.outcome.value.sentinel.dirname == s.dirname
      && r.outcome.value.sentinel.product == s.product
    ensures var response := catalog(UrlFor(kind, s));
      && (response.GetError? ==> r.outcome == Fatal(Unreachable))
      && (response.Page? && response.status != 200 ==> r.outcome == Fatal(BadStatus(response.status)))
      && (response.Page? && response.status == 200 && response.document.None? ==> r.outcome == Fatal(Unreadable))
    ensures var url := UrlFor(kind, s);
      var response := catalog(url);
      response.Page? && response.status == 200 && response.document.Some? ==>
        var scan := Scan(url, s.product, response.document.value, s.orbit);
        && (scan.Ok? ==> r.outcome == Ok(Searched(false, s.(orbit := scan.value))))
        && (!scan.Ok? ==> r.outcome == Propagate(scan))
  {
    var url := UrlFor(kind, s);
    var run := (o: Outcome<Searched>) => Run([url], o);
    match catalog(url)
    case GetError => run(Fatal(Unreachable))
    case Page(status, document) =>
      if status != 200 then run(Fatal(BadStatus(status)))
      else
        match document
        case None => run(Fatal(Unreadable))
        case Some(rows) =>
          match Scan(url, s.product, rows, s.orbit)
          case Ok(orbit) =>
            // the two `return false` of the source
            if orbit.orbitName == "" then run(Ok(Searched(false, s.(orbit := orbit))))
            else run(Ok(Searched(false, s.(orbit := orbit))))
          case Error(f) => run(Error(f))
          case Panic(i, n) => run(Panic(i, n))
          case Fatal(f) => run(Fatal(f))
  }

  /** `newSentinel(dirname)`: parse the name; a name that does not parse
      fails before anything is fetched, otherwise `Locate` continues with the
      parsed product. */
  function NewSentinel(dirname: string, catalog: string -> Response): (r: Run<Sentinel>)
    ensures Parse(dirname).Ok? ==>
      r.queries == [CatalogUrl(PreciseOrbit, Parse(dirname).value.sensorType, Parse(dirname).value.startTime)]
    ensures !Parse(dirname).Ok? ==> r.queries == [] && r.outcome == Propagate(Parse(dirname))
    ensures r.outcome.Ok? ==>
      && Parse(dirname).Ok?
      && r.outcome.value.dirname == dirname
      && r.outcome.value.product == Parse(dirname).value
    ensures r.outcome.Error? ==> Parse(dirname).Error?
  {
    match Parse(dirname)
    case Ok(p) => Locate(dirname, p, catalog)
    case Error(f) => Run([], Error(f))
    case Panic(i, n) => Run([], Panic(i, n))
    case Fatal(f) => Run([], Fatal(f))
  }

  /** The rest of `newSentinel` once `parse` has succeeded: search the
      precise-orbit catalog, and search the restituted-orbit catalog only if
      that first search returned `true` (sentinel.go:43-45). Since `search`
      never returns `true`, exactly one listing is fetched, the precise-orbit
      one, and the restituted listing never is. */
  function Locate(dirname: string, p: Product, catalog: string -> Response): (r: Run<Sentinel>)
    ensures r.queries == [CatalogUrl(PreciseOrbit, p.sensorType, p.startTime)]
    ensures !r.outcome.Error?
    ensures r.outcome.Ok? ==> r.outcome.value.dirname == dirname && r.outcome.value.product == p
    ensures var response := catalog(CatalogUrl(PreciseOrbit, p.sensorType, p.startTime));
      && (response.GetError? ==> r.outcome == Fatal(Unreachable))
      && (response.Page? && response.status != 200 ==> r.outcome == Fatal(BadStatus(response.status)))
      && (response.Page? && response.status == 200 && response.document.None? ==> r.outcome == Fatal(Unreadable))
    ensures var url := CatalogUrl(PreciseOrbit, p.sensorType, p.startTime);
      var response := catalog(url);
      response.Page? && response.status == 200 && response.document.Some? ==>
        var scan := Scan(url, p, response.document.value, NoSelection);
        && (scan.Ok? ==> r.outcome == Ok(Sentinel(dirname, p, scan.value)))
        && (!scan.Ok? ==> r.outcome == Propagate(scan))
  {
    var s := Sentinel(dirname, p, NoSelection);
    var first := Search(PreciseOrbit, s, catalog);
    match first.outcome
    case Ok(res) =>
      if !res.found then Run(first.queries, Ok(res.sentinel))
      else
        var second := Search(RestitutedOrbit, res.sentinel, catalog);
        var outcome := (match second.outcome
          case Ok(res2) => Ok(res2.sentinel)
          case Error(f) => Error(f)
          case Panic(i, n) => Panic(i, n)
          case Fatal(f) => Fatal(f));
        Run(first.queries + second.queries, outcome)
    case Error(f) => Run(first.queries, Error(f))
    case Panic(i, n) => Run(first.queries, Panic(i, n))
    case Fatal(f) => Run(first.queries, Fatal(f))
  }

  /** The restituted-orbit catalog has no influence at all: two networks that
      agree on the precise-orbit listing URL give the same run. */
  lemma NewSentinelIgnoresRestituted(dirname: string, c1: string -> Response, c2: string -> Response)
    requires Parse(dirname).Ok? ==>
      var p := Parse(dirname).value;
      c1(CatalogUrl(PreciseOrbit, p.sensorType, p.startTime)) == c2(CatalogUrl(PreciseOrbit, p.sensorType, p.startTime))
    ensures NewSentinel(dirname, c1) == NewSentinel(dirname, c2)
  {
  }

  /** The result as written: over a well-formed precise-orbit listing the
      sentinel comes back with `orbitName` non-empty exactly when some row
      covers the product, and then it names the last such row and `orbitUrl`
      is the listing URL followed by that name. */
  lemma LocateSelects(dirname: string, p: Product, catalog: string -> Response, rows: seq<string>)
    requires catalog(CatalogUrl(PreciseOrbit, p.sensorType, p.startTime)) == Page(200, Some(rows))
    requires forall j :: 0 <= j < |rows| ==> WellFormed(rows[j])
    ensures var url := CatalogUrl(PreciseOrbit, p.sensorType, p.startTime);
      var r := Locate(dirname, p, catalog);
      && r.outcome.Ok?
      && (r.outcome.value.orbit.orbitName != "" <==> exists j :: 0 <= j < |rows| && Qualifies(p, rows[j]))
      && (forall i :: 0 <= i < |rows| && Qualifies(p, rows[i]) && (forall j :: i < j < |rows| ==> !Qualifies(p, rows[j])) ==>
            r.outcome.value.orbit == Selection(url + rows[i], rows[i]))
  {
    var url := CatalogUrl(PreciseOrbit, p.sensorType, p.startTime);
    ScanFinds(url, p, rows);
    forall i | 0 <= i < |rows| && Qualifies(p, rows[i]) && (forall j :: i < j < |rows| ==> !Qualifies(p, rows[j]))
      ensures Locate(dirname, p, catalog).outcome.value.orbit == Selection(url + rows[i], rows[i])
    {
      ScanLastMatch(url, p, rows, NoSelection, i);
    }
  }

  /** A broken row in the precise-orbit listing ends the run with that row's
      panic or fatal error, and nothing is selected. */
  lemma LocateBrokenRow(dirname: string, p: Product, catalog: string -> Response, rows: seq<string>, i: nat)
    requires catalog(CatalogUrl(PreciseOrbit, p.sensorType, p.startTime)) == Page(200, Some(rows))
    requires i < |rows| && !WellFormed(rows[i])
    requires forall j :: 0 <= j < i ==> WellFormed(rows[j])
    ensures Locate(dirname, p, catalog).outcome == Propagate(ReadRow(rows[i]))
  {
    var url := CatalogUrl(PreciseOrbit, p.sensorType, p.startTime);
    ScanFirstBroken(url, p, rows, NoSelection, i);
  }
}

=== FILE: text.dfy ===
/** The pieces of Go's `strings`, `strconv`-style digit handling and `fmt`
    that the orbit resolver relies on, over `string == seq<char>`. */
module Text {

  // ---------------------------------------------------------------------------
  // strings.Split / strings.Join with a one-character separator
  // ---------------------------------------------------------------------------

  /** The inverse of `Split`: the parts glued together with `sep` between them. */
  function Join(parts: seq<string>, sep: char): (s: string)
    requires |parts| >= 1
    decreases |parts|
  {
    if |parts| == 1 then parts[0] else parts[0] + [sep] + Join(parts[1..], sep)
  }

  /** `strings.Split(s, string(sep))`: every occurrence of `sep` ends a field,
      so there is always one field more than there are separators, and the
      empty string gives one empty field. */
  function Split(s: string, sep: char): (r: seq<string>)
    ensures |r| >= 1
    ensures forall i :: 0 <= i < |r| ==> sep !in r[i]
    ensures Join(r, sep) == s
    decreases |s|
  {
    if |s| == 0 then [""]
    else
      var rest := Split(s[1..], sep);
      if s[0] == sep then
        assert Join([""] + rest, sep) == [sep] + Join(rest, sep) by {
          assert ([""] + rest)[1..] == rest;
        }
        [""] + rest
      else
        var r := [[s[0]] + rest[0]] + rest[1..];
        assert Join(r, sep) == [s[0]] + Join(rest, sep) by {
          if |rest| > 1 {
            assert r[1..] == rest[1..];
          }
        }
        r
  }

  /** The first field of a split is everything before the first separator. */
  lemma {:induction false} SplitHead(s: string, sep: char)
    requires |Split(s, sep)| >= 2
    ensures var head := Split(s, sep)[0];
      |head| < |s| && s[..|head| + 1] == head + [sep] && sep !in head
  {
    var r := Split(s, sep);
    assert s == r[0] + [sep] + Join(r[1..], sep);
    assert s[..|r[0]| + 1] == r[0] + [sep];
  }

  /** A string without the separator is a single field. */
  lemma {:induction false} SplitNoSeparator(a: string, sep: char)
    requires sep !in a
    ensures Split(a, sep) == [a]
    decreases |a|
  {
    if |a| > 0 {
      SplitNoSeparator(a[1..], sep);
      assert [a[0]] + a[1..] == a;
    }
  }

  /** Splitting at a leading field peels that field off. */
  lemma {:induction false} SplitCons(a: string, sep: char, t: string)
    requires sep !in a
    ensures Split(a + [sep] + t, sep) == [a] + Split(t, sep)
    decreases |a|
  {
    var s := a + [sep] + t;
    if |a| == 0 {
      assert s[1..] == t;
    } else {
      assert s[1..] == a[1..] + [sep] + t;
      SplitCons(a[1..], sep, t);
      assert [a[0]] + a[1..] == a;
    }
  }

  /** Round trip: splitting a join of separator-free parts gives the parts back. */
  lemma {:induction false} SplitJoin(parts: seq<string>, sep: char)
    requires |parts| >= 1
    requires forall i :: 0 <= i < |parts| ==> sep !in parts[i]
    ensures Split(Join(parts, sep), sep) == parts
    decreases |parts|
  {
    if |parts| == 1 {
      SplitNoSeparator(parts[0], sep);
    } else {
      SplitJoin(parts[1..], sep);
      SplitCons(parts[0], sep, Join(parts[1..], sep));
      assert [parts[0]] + parts[1..] == parts;
    }
  }

  // ---------------------------------------------------------------------------
  // Decimal digits
  // ---------------------------------------------------------------------------

  predicate IsDigit(c: char) {
    '0' <= c <= '9'
  }

  predicate AllDigits(s: string) {
    forall i :: 0 <= i < |s| ==> IsDigit(s[i])
  }

  function DigitChar(d: nat): (c: char)
    requires d < 10
    ensures IsDigit(c)
  {
    (('0' as int) + d) as char
  }

  function Pow10(k: nat): (r: nat)
    ensures r >= 1
  {
    if k == 0 then 1 else 10 * Pow10(k - 1)
  }

  /** The number a run of decimal digits denotes (most significant first). */
  function Value(s: string): (n: nat)
    requires AllDigits(s)
    decreases |s|
  {
    if |s| == 0 then 0
    else Value(s[..|s| - 1]) * 10 + ((s[|s| - 1] as int) - ('0' as int))
  }

  /** `n` written with exactly `width` digits, zero-padded on the left: the
      shape Go's time formatting gives to "2006" (width 4) and "01" (width 2). */
  function Pad(n: nat, width: nat): (r: string)
    ensures |r| == width
    ensures AllDigits(r)
    decreases width
  {
    if width == 0 then "" else Pad(n / 10, width - 1) + [DigitChar(n % 10)]
  }

  /** Padding a number that fits in the width loses nothing. */
  lemma {:induction false} ValuePad(n: nat, width: nat)
    requires n < Pow10(width)
    ensures Value(Pad(n, width)) == n
    decreases width
  {
    if width > 0 {
      var r := Pad(n, width);
      ValuePad(n / 10, width - 1);
      assert r[..|r| - 1] == Pad(n / 10, width - 1);
    }
  }

  /** Reading a digit run and padding it back to its own width gives it back. */
  lemma {:induction false} PadValue(s: string)
    requires AllDigits(s)
    ensures Pad(Value(s), |s|) == s
    decreases |s|
  {
    if |s| > 0 {
      var init := s[..|s| - 1];
      PadValue(init);
      var v := Value(s);
      assert v / 10 == Value(init);
      assert v % 10 == (s[|s| - 1] as int) - ('0' as int);
      assert s == init + [s[|s| - 1]];
    }
  }

  // ---------------------------------------------------------------------------
  // fmt.Sprintf restricted to %s verbs with string operands
  // ---------------------------------------------------------------------------

  /** Go's `fmt.Sprintf` for formats whose only verb is `%s`: each `%s` takes
      the next operand, a `%s` with no operand left prints `%!s(MISSING)`, and
      operands left over are reported as `%!(EXTRA string=…, …)`. */
  function Sprintf(format: string, args: seq<string>): (s: string)
    ensures Literal(format) && |args| == 0 ==> s == format
    ensures Literal(format) && |args| > 0 ==> s == format + "%!(EXTRA " + Extras(args) + ")"
    decreases |format|
  {
    if |format| == 0 then
      if |args| == 0 then "" else "%!(EXTRA " + Extras(args) + ")"
    else if |format| >= 2 && format[0] == '%' && format[1] == 's' then
      if |args| == 0 then "%!s(MISSING)" + Sprintf(format[2..], [])
      else args[0] + Sprintf(format[2..], args[1..])
    else [format[0]] + Sprintf(format[1..], args)
  }

  /** Format text without any `%`: it has no verbs and prints as itself. */
  predicate Literal(format: string)
    decreases |format|
  {
    |format| == 0 || (format[0] != '%' && Literal(format[1..]))
  }

  function Extras(args: seq<string>): (s: string)
    requires |args| >= 1
    decreases |args|
  {
    if |args| == 1 then "string=" + args[0]
    else "string=" + args[0] + ", " + Extras(args[1..])
  }

  /** Text without a `%` passes through `Sprintf` unchanged. */
  lemma {:induction false} SprintfLiteral(lit: string, rest: string, args: seq<string>)
    requires '%' !in lit
    ensures Sprintf(lit + rest, args) == lit + Sprintf(rest, args)
    decreases |lit|
  {
    if |lit| > 0 {
      var f := lit + rest;
      assert f[0] == lit[0] && lit[0] in lit;
      assert f[1..] == lit[1..] + rest;
      assert forall c :: c in lit[1..] ==> c in lit;
      SprintfLiteral(lit[1..], rest, args);
      calc {
        Sprintf(f, args);
        [lit[0]] + Sprintf(lit[1..] + rest, args);
        [lit[0]] + (lit[1..] + Sprintf(rest, args));
        { assert [lit[0]] + lit[1..] == lit; }
        lit + Sprintf(rest, args);
      }
    } else {
      assert lit + rest == rest;
    }
  }
}
